=== FILE: README.md ===
# Trivia API — a Dafny model of the request handlers

This project models the core of a small trivia REST backend. The backend keeps
trivia **questions** and **categories**. It offers endpoints to list categories,
page through questions, delete and create questions, search question texts,
list the questions of one category, and draw the next question of a quiz.

The model replaces the relational database with an in-memory `Store`. The store
has two sequences, each kept in primary-key order. Every request handler becomes
a pure function of the store and the already-parsed request. Handlers that write
(delete, create) return an `Outcome`, which pairs the response with the new
store. A response is either one success envelope per endpoint or `Abort(code)`.

Files and modules:

- `pagination.dfy` — `Pagination`: the page size (10) and the pagination helper.
  The helper uses Python's full slice semantics, so page 0 and negative pages
  behave exactly as the slice `selection[(p-1)*10 : (p-1)*10+10]` does.
- `text.dfy` — `Text`: case-insensitive substring matching. This is what the
  search query `question ILIKE '%term%'` means.
- `models.dfy` — `Optional` and `Models`: the `Question` and `Category` rows,
  the store and its invariant. Also the table operations the handlers use:
  lookup by id, filtering, removal, insertion, and the id-to-type map.
- `handlers.dfy` — `Handlers`: the seven handlers.
- `errors.dfy` — `Errors`: the error translator, mapping codes 400/404/405/422
  to their fixed messages.
- `app.dfy` — `App`: routing a `Request` to its handler, plus the lemmas that
  relate several requests (delete then list, create then list, and so on).

Where the documented behaviour and the code differ, the model follows the code:

- Non-positive page numbers are not rejected and do not fall back to page 1.
  They are sliced as Python slices them. So page 0 is always empty, and page -1
  of a selection of n > 10 items is the up-to-ten items
  `selection[max(0, n−20) .. n−10]` (`NegativePage`, `MinusOnePageNotEmpty`).
- The create handler checks the four fields for truthiness. So a `category` or
  `difficulty` of 0 is refused with 422 (`CreateRejectsZero`).
- An unknown quiz category does not always yield null. It yields null only
  when no question carries its id (`QuizEmptyCategoryIsNull`). Create never
  checks that the category exists, so a question can be filed under an unknown
  id and is then offered by the quiz (`QuizUnknownCategoryCanAnswer`).

## Model

| member | source | states |
|---|---|---|
| `Pagination.Page` | backend/flaskr/__init__.py:8-14 | A page never holds more than 10 items. For p ≥ 1 its length is min(10, max(0, n − (p−1)·10)), and item j is item (p−1)·10 + j of the selection, so order is kept |
| `Pagination.PageWindow` | backend/flaskr/__init__.py:10-14 | For p ≥ 1 the page equals `selection[(p−1)·10 .. min(n, (p−1)·10+10)]`; it is empty once (p−1)·10 is past the end |
| `Pagination.PageEmptyIff` | backend/flaskr/__init__.py:11-14 | The page is empty exactly when: p ≥ 1 and n ≤ (p−1)·10; or p = 0; or p < 0 and n + 10p ≤ 0 |
| `Pagination.PageZeroIsEmpty` | backend/flaskr/__init__.py:11-14 | Page 0 is the slice [-10:0], which is empty for every selection |
| `Pagination.NegativePage` | backend/flaskr/__init__.py:11-14 | A negative page p is `selection[max(0, n+(p−1)·10) .. max(0, n+10p)]`, following Python's negative indices |
| `Pagination.MinusOnePageNotEmpty` | backend/flaskr/__init__.py:11-14 | With more than 10 items, page -1 is the non-empty block `selection[max(0,n−20) .. n−10]` |
| `Pagination.PageElementsFromSelection` | backend/flaskr/__init__.py:14 | Every item on any page, including non-positive pages, is an item of the selection |
| `Pagination.PageLocates` | backend/flaskr/__init__.py:12-14 | Item i of the selection is on page i/10 + 1, at offset i mod 10 |
| `Pagination.PagesFromWindow` | backend/flaskr/__init__.py:12-14 | Consecutive pages p … p+k−1, concatenated, are exactly the window [(p−1)·10, (p+k−1)·10) of the selection, clamped to its length. Pages neither overlap nor leave gaps |
| `Pagination.AllPagesCoverSelection` | backend/flaskr/__init__.py:12-14 | For any count with n ≤ 10·count, pages 1 … count read in order give back the whole selection and nothing more |
| `Text.ContainsFrom` | backend/flaskr/__init__.py:104 | The scan from index i succeeds exactly when the term occurs at some index j ≥ i |
| `Text.Contains` | backend/flaskr/__init__.py:104 | Substring test: true exactly when the term occurs somewhere in the text |
| `Text.MatchesIgnoringCase` | backend/flaskr/__init__.py:104 | `ILIKE '%term%'` holds exactly when the lower-cased term occurs in the lower-cased text |
| `Text.ExactOccurrenceMatches` | backend/flaskr/__init__.py:104 | A term that occurs verbatim in the text is matched |
| `Text.LowerStringIdempotent` | backend/flaskr/__init__.py:104 | Lower-casing twice is the same as lower-casing once |
| `Text.TermCaseIrrelevant` | backend/flaskr/__init__.py:104 | Changing the letter case of the term does not change the match |
| `Text.TextCaseIrrelevant` | backend/flaskr/__init__.py:104 | Changing the letter case of the question text does not change the match |
| `Models.FindQuestion` | backend/flaskr/__init__.py:56-58 | `Question.query.get(id)` finds a row exactly when some question has that id; the row found is in the table and has that id |
| `Models.FindCategory` | backend/flaskr/__init__.py:114-116 | `Category.query.get(id)` finds a row exactly when some category has that id; the row found is in the table and has that id |
| `Models.Filter` | backend/flaskr/__init__.py:133-137 | A query filter keeps exactly the rows satisfying its condition, and never more rows than the table has |
| `Models.FilterMultiplicity` | backend/flaskr/__init__.py:118 | A filter keeps each matching row exactly as often as the table holds it and drops every other row. So the length of the result is the number of matching rows |
| `Models.FilterKeepingAll` | backend/flaskr/__init__.py:133-137 | A filter whose condition holds for every row returns the table unchanged |
| `Models.FilterKeepsIdOrder` | backend/flaskr/__init__.py:118 | Filtering a table in id order yields rows still in id order |
| `Models.WithoutQuestion` | backend/flaskr/__init__.py:60 | After the delete, the table holds exactly the old rows whose id differs from the deleted one, and id order is kept |
| `Models.WithoutPresentQuestion` | backend/flaskr/__init__.py:60-64 | With unique ids, deleting a present id shrinks the table by exactly one row |
| `Models.InsertQuestion` | backend/flaskr/__init__.py:85 | Insert adds exactly one row: the new table is the old rows plus the new one. A fresh id keeps the table in id order |
| `Models.InsertLargestAppends` | backend/flaskr/__init__.py:85-87 | An id above every present id puts the new row at the end of the table |
| `Models.CategoryMap` | backend/flaskr/__init__.py:36 | The dict's keys are exactly the category ids. Each value is the type of a category with that key. With unique ids, every category maps to its own type |
| `Handlers.GetAllCategories` | backend/flaskr/__init__.py:29-37 | 404 exactly when there are no categories. Otherwise the map's keys are exactly the category ids, and each id maps to its category's type |
| `Handlers.GetAllQuestions` | backend/flaskr/__init__.py:39-52 | 404 exactly when the requested page lies past the end (closed form in `PastEnd`). Otherwise the response carries that page and the count of the whole table. Its categories map has exactly the category ids as keys, and each value is the type of a category with that id. With unique ids, every category maps to its own type |
| `Handlers.DeleteQuestionById` | backend/flaskr/__init__.py:54-65 | Unknown id: 404 and the store is unchanged. Known id: `deleted` is the id, only rows with that id are gone, categories are unchanged, and `total_questions` is the new count |
| `Handlers.AddQuestion` | backend/flaskr/__init__.py:67-96 | Succeeds exactly when all four fields are truthy, the insert does not fail and the id is fresh. Otherwise: 422 and the store is unchanged. On success the table gains exactly the supplied question under the new id; `created` is that id, the total is the new count, and the page is taken from the new table |
| `Handlers.SearchMatches` | backend/flaskr/__init__.py:104 | The matches are exactly the questions whose `question` text contains the term, ignoring case; answers are not searched. Each match appears as often as it does in the table, so the match count is the number of matching rows |
| `Handlers.SearchQuestions` | backend/flaskr/__init__.py:98-110 | 404 exactly when the term is absent, null or empty. An empty match set is still a success. The total counts all matches, and every returned question is a stored question that matches |
| `Handlers.InCategory` | backend/flaskr/__init__.py:118 | The questions kept are exactly those whose category equals the id. Each appears as often as it does in the table, so the count is the number of such rows |
| `Handlers.GetQuestionsByCategoryId` | backend/flaskr/__init__.py:112-125 | 404 exactly when the category is unknown. Otherwise every returned question is stored and has that category, the total counts all of them, and `current_category` is that category's type |
| `Handlers.QuizCandidates` | backend/flaskr/__init__.py:130-137 | Candidates are exactly the stored questions not in `previous_questions`, further limited to the quiz category when its id is non-zero |
| `Handlers.StartQuiz` | backend/flaskr/__init__.py:127-142 | Never aborts. Null exactly when there are no candidates. A chosen question is stored, was not asked before, and has the quiz category when one is set |
| `Errors.ErrorHandler` | backend/flaskr/__init__.py:144-158 | A body exists exactly for codes 400, 404, 405 and 422. It has `success = false`, `error` equal to the code, and a non-empty message |
| `Errors.ErrorMessages` | backend/flaskr/__init__.py:144-158 | The messages: 404 "resource not found", 422 "request cannot be processed", 400 "bad request", 405 "method not allowed" |
| `App.Handle` | backend/flaskr/__init__.py:29-142 | Only delete and create change the store. Every abort is a 404 or a 422, and an error handler is registered for it. The quiz never aborts |
| `App.HandlePreservesValid` | backend/flaskr/__init__.py:54-96 | No request breaks the id order (and so the uniqueness) of either table |
| `App.CategoryLookupAgreesWithList` | backend/flaskr/__init__.py:112-125 | A category id is found by the per-category endpoint exactly when it is a key of the categories map, and `current_category` is the type the map gives for it |
| `App.DeleteRemovesExactlyOne` | backend/flaskr/__init__.py:54-65 | With unique ids, deleting a present question answers `deleted = id` with `total_questions` = old count − 1, and the id is gone from the table |
| `App.DeleteTwiceNotFound` | backend/flaskr/__init__.py:54-58 | A second delete of the same id answers 404 and changes nothing |
| `App.DeletedNeverListed` | backend/flaskr/__init__.py:39-65 | After a delete, no page of the question list shows the deleted id |
| `App.CreateRejectsZero` | backend/flaskr/__init__.py:69-76 | A `category` or `difficulty` of 0 is refused with 422 and the store is unchanged |
| `App.CreateWithLargestIdAppends` | backend/flaskr/__init__.py:78-87 | When the new id is above all present ids, the new question is appended at the end of the table |
| `App.CreatedIsListed` | backend/flaskr/__init__.py:78-94 | After a create, some positive page of the question list contains the question, with the supplied fields and the new id |
| `App.CreatedIsListedInCategory` | backend/flaskr/__init__.py:112-125 | After a create whose category exists, some page of that category's list contains the new question |
| `App.SearchFindsVerbatimOccurrence` | backend/flaskr/__init__.py:98-110 | A stored question whose text contains a non-empty term verbatim appears on some page of that term's search results |
| `App.EmptyTableSearchVersusList` | backend/flaskr/__init__.py:98-110 | With no questions stored, a search succeeds with `[]` and total 0, while page 1 of the question list answers 404 |
| `App.QuizAnyCandidateCanBeChosen` | backend/flaskr/__init__.py:137-138 | Every candidate is the quiz answer for some outcome of the random choice |
| `App.QuizExhausted` | backend/flaskr/__init__.py:133-142 | Once every question of the targeted category has been asked, the quiz answers null rather than an error |
| `App.QuizEmptyCategoryIsNull` | backend/flaskr/__init__.py:133-138 | A non-zero category that no question belongs to yields null |
| `App.QuizUnknownCategoryCanAnswer` | backend/flaskr/__init__.py:75-138 | Create does not check that the category exists. So after creating a question under an unknown category id, the category is still unknown, yet the quiz for that id returns a question |

## Left out

- Flask routing, `request.args` and `request.get_json` parsing, and `jsonify`
  serialisation are framework machinery. The page number arrives as an
  already-parsed integer. Werkzeug turns a missing or non-numeric `page` into
  the default 1 (line 11) before the helper sees it.
- CORS setup and the `after_request` header injection (lines 20-27) only add
  response headers. They are not modelled.
- SQLAlchemy and the database are replaced by the `Store` sequences. This
  covers `setup_db`, the queries, `.insert()` and `.delete()`. The id the
  database assigns is the parameter `newId`. Any failure of the insert that the
  bare `except` (lines 95-96) turns into 422 is the parameter `insertFails`.
  A `newId` that is already taken counts as a primary-key failure.
- Query order: the queries at lines 46, 87, 104, 118 and 133 have no
  `order_by`, so the database decides their order. The model reads them in
  table (id) order. Its page contents for those endpoints assume that order.
- `Text.MatchesIgnoringCase`: case folding covers ASCII letters only. A `%` or
  `_` inside the search term counts as an ordinary character, not as an
  `ILIKE` wildcard. A backslash also counts as an ordinary character. Line 104
  gives no `ESCAPE` clause, so the database treats `\` as the pattern escape:
  the term `a\b` matches the text "ab" but not "a\b". A term ending in a
  single backslash turns the closing `%` into a literal, so it matches only
  texts that end with the rest of the term followed by `%`.
- `Handlers.StartQuiz`: `random.choice` is the parameter `pick`; the answer is
  the candidate at index `pick mod |candidates|`. The uniform distribution is
  not modelled, only which answers are possible: every candidate is the answer
  for some `pick` (`QuizAnyCandidateCanBeChosen`).
- JSON values of unexpected types are not modelled. This includes a string
  category id in the quiz request (`"2"`, which SQL compares after coercion), a
  non-string search term, and a missing or non-object body (an unhandled
  exception, so a plain 500). Request fields are `Option<string>` or
  `Option<int>`, and `None` stands for an absent key or `null`.
- `Handlers.AddQuestion`: the bare `except` at lines 95-96 also covers the
  re-query at line 87 and the page formatting at line 88, which run after the
  insert at line 85. A failure there answers 422 although the row has already
  been inserted. The model's 422 always leaves the store unchanged, so it
  covers only failures of the insert itself.
- Unexpected database exceptions in the handlers other than create reach the
  framework as a 500 without a JSON body. They are not modelled.
- `models.py` is not part of this model. `Question.format()` is modelled as the
  `Question` record itself. The column `Category.type` is the field `kind`,
  because `type` is a Dafny keyword.
- `Handlers.GetAllCategories`: the contract maps each category to its own type
  only when category ids are unique. The primary key guarantees that.
- `Handlers.DeleteQuestionById`: the contract says `total_questions` is the
  count after the delete. That this is the old count minus one is proved only
  for stores with unique ids, in `App.DeleteRemovesExactlyOne`.
- `backend/test_flaskr.py` needs a live Postgres database. Its assertions
  disagree with the handlers. It reads a `questions` key from the categories
  response and a `message` of "success" or "Page not found", none of which the
  handlers return. It expects 200 for a create with `difficulty: 0`, which
  line 75 rejects with 422.

=== FILE: app.dfy ===
/**
 The application: routes a parsed request to its handler, and states the
 properties that relate several requests or hold across all handlers.
 */
module App {
  import opened Optional
  import opened Models
  import opened Pagination
  import opened Text
  import opened Handlers
  import Errors

  /** The seven routes, with their path, query and body parameters parsed. */
  datatype Request =
    | GetCategories
    | GetQuestions(page: int)
    | Delete(questionId: int)
    | Create(body: QuestionBody, page: int)
    | Search(searchTerm: Option<string>, page: int)
    | GetCategoryQuestions(categoryId: int, page: int)
    | Quiz(quizCategory: int, previousQuestions: seq<int>)

  /** What the environment decides: the id the database assigns to a new row,
      whether the insert fails, and the outcome of the random choice. */
  datatype Environment = Environment(newId: int, insertFails: bool, pick: nat)

  function Handle(st: Store, req: Request, env: Environment): (o: Outcome)
    ensures !(req.Delete? || req.Create?) ==> o.store == st
    ensures o.response.Abort? ==> o.response.code == Errors.NotFound || o.response.code == Errors.Unprocessable
    ensures o.response.Abort? ==> Errors.ErrorHandler(o.response.code).Some?
    ensures req.Quiz? ==> !o.response.Abort?
  {
    match req
    case GetCategories => Outcome(GetAllCategories(st), st)
    case GetQuestions(page) => Outcome(GetAllQuestions(st, page), st)
    case Delete(id) => DeleteQuestionById(st, id)
    case Create(body, page) => AddQuestion(st, body, page, env.newId, env.insertFails)
    case Search(term, page) => Outcome(SearchQuestions(st, term, page), st)
    case GetCategoryQuestions(id, page) => Outcome(GetQuestionsByCategoryId(st, id, page), st)
    case Quiz(category, previous) => Outcome(StartQuiz(st, category, previous, env.pick), st)
  }

  // ---------------------------------------------------------------- store invariant

  /** No request breaks the primary-key order of either table. */
  lemma HandlePreservesValid(st: Store, req: Request, env: Environment)
    requires Valid(st)
    ensures Valid(Handle(st, req, env).store)
  {
  }

  // ---------------------------------------------------------------- categories

  /** The categories map and the per-category endpoint agree: a category id is
      found by one exactly when it is a key of the other, and the type that
      endpoint reports is the one the map gives. */
  lemma CategoryLookupAgreesWithList(st: Store, categoryId: int, page: int)
    requires Valid(st)
    ensures var r := GetQuestionsByCategoryId(st, categoryId, page);
            var list := GetAllCategories(st);
            && (r.CategoryQuestions? <==> list.CategoryList? && categoryId in list.categories)
            && (r.CategoryQuestions? ==> r.currentCategory == list.categories[categoryId])
  {
    var r := GetQuestionsByCategoryId(st, categoryId, page);
    if r.CategoryQuestions? {
      var c :| c in st.categories && c.id == categoryId && c.kind == r.currentCategory;
    }
  }

  // ---------------------------------------------------------------- delete

  /** Deleting a present question removes exactly that one row. */
  lemma DeleteRemovesExactlyOne(st: Store, id: int)
    requires Valid(st)
    requires HasQuestion(st.questions, id)
    ensures var o := DeleteQuestionById(st, id);
            && o.response == QuestionDeleted(id, |st.questions| - 1)
            && |o.store.questions| == |st.questions| - 1
            && !HasQuestion(o.store.questions, id)
  {
    WithoutPresentQuestion(st.questions, id);
  }

  /** Deleting the same id a second time finds nothing. */
  lemma DeleteTwiceNotFound(st: Store, id: int)
    ensures var o := DeleteQuestionById(st, id);
            DeleteQuestionById(o.store, id) == Outcome(Abort(Errors.NotFound), o.store)
  {
  }

  /** A deleted question appears on no page of the question list. */
  lemma DeletedNeverListed(st: Store, id: int, page: int)
    ensures var r := GetAllQuestions(DeleteQuestionById(st, id).store, page);
            r.QuestionList? ==> forall q :: q in r.questions ==> q.id != id
  {
  }

  // ---------------------------------------------------------------- create

  /** A zero category or difficulty is falsy, so the create is refused. */
  lemma CreateRejectsZero(st: Store, body: QuestionBody, page: int, env: Environment)
    requires body.category == Some(0) || body.difficulty == Some(0)
    ensures AddQuestion(st, body, page, env.newId, env.insertFails) == Outcome(Abort(Errors.Unprocessable), st)
  {
  }

  /** When the database hands out an id above every present id, the new
      row is appended at the end of the table. */
  lemma CreateWithLargestIdAppends(st: Store, body: QuestionBody, page: int, newId: int)
    requires Complete(body)
    requires forall q :: q in st.questions ==> q.id < newId
    ensures AddQuestion(st, body, page, newId, false).store.questions == st.questions + [NewQuestion(body, newId)]
  {
    assert forall i :: 0 <= i < |st.questions| ==> st.questions[i] in st.questions;
    InsertLargestAppends(st.questions, NewQuestion(body, newId));
  }

  /** A created question is listed afterwards, on some positive page, with
      the fields that were supplied. */
  lemma CreatedIsListed(st: Store, body: QuestionBody, page: int, newId: int)
    requires AddQuestion(st, body, page, newId, false).response.QuestionCreated?
    ensures var st' := AddQuestion(st, body, page, newId, false).store;
            exists p :: p >= 1 && GetAllQuestions(st', p).QuestionList? && NewQuestion(body, newId) in GetAllQuestions(st', p).questions
  {
    var st' := AddQuestion(st, body, page, newId, false).store;
    var q := NewQuestion(body, newId);
    assert q in st'.questions;
    var i :| 0 <= i < |st'.questions| && st'.questions[i] == q;
    PageLocates(i, st'.questions);
    var p := i / PageSize + 1;
    assert Page(p, st'.questions)[i % PageSize] == q;
    assert GetAllQuestions(st', p).QuestionList?;
  }

  /** A created question is also listed under its category, when that category exists. */
  lemma CreatedIsListedInCategory(st: Store, body: QuestionBody, page: int, newId: int)
    requires AddQuestion(st, body, page, newId, false).response.QuestionCreated?
    requires HasCategory(st.categories, body.category.value)
    ensures var st' := AddQuestion(st, body, page, newId, false).store;
            var cat := body.category.value;
            exists p :: p >= 1 && GetQuestionsByCategoryId(st', cat, p).CategoryQuestions?
                        && NewQuestion(body, newId) in GetQuestionsByCategoryId(st', cat, p).questions
  {
    var st' := AddQuestion(st, body, page, newId, false).store;
    var cat := body.category.value;
    var q := NewQuestion(body, newId);
    var matches := InCategory(st'.questions, cat);
    assert q in matches;
    var i :| 0 <= i < |matches| && matches[i] == q;
    PageLocates(i, matches);
    var p := i / PageSize + 1;
    assert Page(p, matches)[i % PageSize] == q;
    assert GetQuestionsByCategoryId(st', cat, p).CategoryQuestions?;
  }

  // ---------------------------------------------------------------- search

  /** Every question containing the term verbatim is among the matches, and
      so appears on some page of the search results. */
  lemma SearchFindsVerbatimOccurrence(st: Store, term: string, q: Question)
    requires term != ""
    requires q in st.questions
    requires IsSubstring(term, q.question)
    ensures exists p :: p >= 1 && q in SearchQuestions(st, Some(term), p).questions
  {
    ExactOccurrenceMatches(q.question, term);
    var matches := SearchMatches(st.questions, term);
    assert q in matches;
    var i :| 0 <= i < |matches| && matches[i] == q;
    PageLocates(i, matches);
    var p := i / PageSize + 1;
    assert Page(p, matches)[i % PageSize] == q;
    assert SearchQuestions(st, Some(term), p).questions == Page(p, matches);
  }

  /** On an empty question table a search succeeds with no results, while
      the question list answers 404. */
  lemma EmptyTableSearchVersusList(st: Store, term: string)
    requires st.questions == []
    requires term != ""
    ensures SearchQuestions(st, Some(term), 1) == SearchResult([], 0)
    ensures GetAllQuestions(st, 1) == Abort(Errors.NotFound)
  {
    assert SearchMatches(st.questions, term) == [];
  }

  // ---------------------------------------------------------------- quiz

  /** The pick equal to a candidate's index chooses that candidate. */
  lemma QuizPickAtIndex(st: Store, quizCategory: int, previous: seq<int>, i: nat)
    requires i < |QuizCandidates(st.questions, quizCategory, previous)|
    ensures StartQuiz(st, quizCategory, previous, i) == QuizQuestion(Some(QuizCandidates(st.questions, quizCategory, previous)[i]))
  {
    assert i % |QuizCandidates(st.questions, quizCategory, previous)| == i;
  }

  /** Every candidate can be the random choice. */
  lemma QuizAnyCandidateCanBeChosen(st: Store, quizCategory: int, previous: seq<int>, q: Question)
    requires q in QuizCandidates(st.questions, quizCategory, previous)
    ensures exists pick: nat :: StartQuiz(st, quizCategory, previous, pick) == QuizQuestion(Some(q))
  {
    var candidates := QuizCandidates(st.questions, quizCategory, previous);
    var i :| 0 <= i < |candidates| && candidates[i] == q;
    QuizPickAtIndex(st, quizCategory, previous, i);
  }

  /** Once every question of the chosen category has been asked, the quiz
      answers null rather than an error. */
  lemma QuizExhausted(st: Store, quizCategory: int, previous: seq<int>, pick: nat)
    requires forall q :: q in st.questions && (quizCategory == 0 || q.category == quizCategory) ==> q.id in previous
    ensures StartQuiz(st, quizCategory, previous, pick) == QuizQuestion(None)
  {
  }

  /** A non-zero category that no question belongs to yields null. */
  lemma QuizEmptyCategoryIsNull(st: Store, quizCategory: int, previous: seq<int>, pick: nat)
    requires quizCategory != 0
    requires forall q :: q in st.questions ==> q.category != quizCategory
    ensures StartQuiz(st, quizCategory, previous, pick) == QuizQuestion(None)
  {
    QuizExhausted(st, quizCategory, previous, pick);
  }

  /** An unknown category does not by itself make the quiz answer null: create
      never checks that the category exists, so a question can be filed under
      an unknown category id, and the quiz for that id then returns a question
      while the category stays unknown. */
  lemma QuizUnknownCategoryCanAnswer(st: Store, body: QuestionBody, page: int, newId: int, previous: seq<int>, pick: nat)
    requires AddQuestion(st, body, page, newId, false).response.QuestionCreated?
    requires !HasCategory(st.categories, body.category.value)
    requires newId !in previous
    ensures var st' := AddQuestion(st, body, page, newId, false).store;
            && !HasCategory(st'.categories, body.category.value)
            && StartQuiz(st', body.category.value, previous, pick).question.Some?
  {
    var st' := AddQuestion(st, body, page, newId, false).store;
    var q := NewQuestion(body, newId);
    assert q in st'.questions;
    assert q in QuizCandidates(st'.questions, body.category.value, previous);
  }
}

=== FILE: errors.dfy ===
/**
 The error translator: the four registered error handlers turn an abort code
 into a uniform JSON error body carrying `success = false`.
 */
module Errors {
  import opened Optional

  datatype ErrorBody = ErrorBody(success: bool, error: int, message: string)

  const BadRequest := 400
  const NotFound := 404
  const MethodNotAllowed := 405
  const Unprocessable := 422

  /** The error body registered for an abort code; None when no handler is
      registered and the framework's default page is served instead. */
  function ErrorHandler(code: int): (r: Option<ErrorBody>)
    ensures r.Some? <==> code == BadRequest || code == NotFound || code == MethodNotAllowed || code == Unprocessable
    ensures r.Some? ==> !r.value.success && r.value.error == code && r.value.message != ""
  {
    if code == NotFound then Some(ErrorBody(false, NotFound, "resource not found"))
    else if code == Unprocessable then Some(ErrorBody(false, Unprocessable, "request cannot be processed"))
    else if code == BadRequest then Some(ErrorBody(false, BadRequest, "bad request"))
    else if code == MethodNotAllowed then Some(ErrorBody(false, MethodNotAllowed, "method not allowed"))
    else None
  }

  /** The message of each handled code. */
  lemma ErrorMessages()
    ensures ErrorHandler(404).value.message == "resource not found"
    ensures ErrorHandler(422).value.message == "request cannot be processed"
    ensures ErrorHandler(400).value.message == "bad request"
    ensures ErrorHandler(405).value.message == "method not allowed"
  {
  }
}

=== FILE: handlers.dfy ===
/**
 The seven request handlers of the trivia API, each a pure function of the
 store and the already-parsed request. A handler that writes returns the new
 store alongside its response; the others leave the store as it was.
 */
module Handlers {
  import opened Optional
  import opened Models
  import opened Pagination
  import opened Text
  import Errors

  /** A response: one success envelope per endpoint (all with
      `success = true`), or an abort with an HTTP error code. */
  datatype Response =
    | CategoryList(categories: map<int, string>)
    | QuestionList(questions: seq<Question>, totalQuestions: nat, categories: map<int, string>)
    | QuestionDeleted(deleted: int, totalQuestions: nat)
    | QuestionCreated(created: int, questions: seq<Question>, totalQuestions: nat)
    | SearchResult(questions: seq<Question>, totalQuestions: nat)
    | CategoryQuestions(questions: seq<Question>, totalQuestions: nat, currentCategory: string)
    | QuizQuestion(question: Option<Question>)
    | Abort(code: int)

  /** A response together with the store after the request. */
  datatype Outcome = Outcome(response: Response, store: Store)

  // ---------------------------------------------------------------- GET /categories

  function GetAllCategories(st: Store): (r: Response)
    ensures r.Abort? <==> |st.categories| == 0
    ensures r.Abort? ==> r.code == Errors.NotFound
    ensures !r.Abort? ==> r.CategoryList?
    ensures r.CategoryList? ==> forall k :: k in r.categories <==> HasCategory(st.categories, k)
    ensures r.CategoryList? && CategoriesInIdOrder(st.categories) ==>
              forall c :: c in st.categories ==> c.id in r.categories && r.categories[c.id] == c.kind
  {
    if |st.categories| == 0 then Abort(Errors.NotFound)
    else CategoryList(CategoryMap(st.categories))
  }

  // ---------------------------------------------------------------- GET /questions?page=p

  function GetAllQuestions(st: Store, page: int): (r: Response)
    ensures r.Abort? <==> PastEnd(page, |st.questions|)
    ensures r.Abort? ==> r.code == Errors.NotFound
    ensures !r.Abort? ==> r.QuestionList?
    ensures r.QuestionList? ==> r.questions == Page(page, st.questions) && r.totalQuestions == |st.questions|
    ensures r.QuestionList? ==> forall k :: k in r.categories <==> HasCategory(st.categories, k)
    ensures r.QuestionList? ==>
              forall k :: k in r.categories ==> exists c :: c in st.categories && c.id == k && c.kind == r.categories[k]
    ensures r.QuestionList? && CategoriesInIdOrder(st.categories) ==>
              forall c :: c in st.categories ==> c.id in r.categories && r.categories[c.id] == c.kind
  {
    var current := Page(page, st.questions);
    PageEmptyIff(page, st.questions);
    if |current| == 0 then Abort(Errors.NotFound)
    else QuestionList(current, |st.questions|, CategoryMap(st.categories))
  }

  // ---------------------------------------------------------------- DELETE /questions/id

  function DeleteQuestionById(st: Store, id: int): (o: Outcome)
    ensures !HasQuestion(st.questions, id) ==> o.response == Abort(Errors.NotFound) && o.store == st
    ensures HasQuestion(st.questions, id) ==>
              && o.response.QuestionDeleted?
              && o.response.deleted == id
              && o.response.totalQuestions == |o.store.questions|
              && o.store.categories == st.categories
              && forall q :: q in o.store.questions <==> q in st.questions && q.id != id
  {
    match FindQuestion(st.questions, id)
    case None => Outcome(Abort(Errors.NotFound), st)
    case Some(_) =>
      var remaining := WithoutQuestion(st.questions, id);
      Outcome(QuestionDeleted(id, |remaining|), st.(questions := remaining))
  }

  // ---------------------------------------------------------------- POST /questions

  /** The JSON body of a create request; None is an absent key or `null`. */
  datatype QuestionBody = QuestionBody(
    question: Option<string>, answer: Option<string>, category: Option<int>, difficulty: Option<int>)

  /** Python truthiness of a JSON string and of a JSON number. */
  predicate TruthyText(v: Option<string>) { v.Some? && v.value != "" }

  predicate TruthyNumber(v: Option<int>) { v.Some? && v.value != 0 }

  predicate Complete(b: QuestionBody)
  {
    TruthyText(b.question) && TruthyText(b.answer) && TruthyNumber(b.category) && TruthyNumber(b.difficulty)
  }

  function NewQuestion(b: QuestionBody, id: int): Question
    requires Complete(b)
  {
    Question(id, b.question.value, b.answer.value, b.category.value, b.difficulty.value)
  }

  /** `newId` is the id the database assigns; `insertFails` stands for any
      failure of the insert. A newId that is already taken is a primary-key
      violation, which fails the insert as well. */
  function AddQuestion(st: Store, body: QuestionBody, page: int, newId: int, insertFails: bool): (o: Outcome)
    ensures o.response.Abort? || o.response.QuestionCreated?
    ensures o.response.Abort? ==> o.response.code == Errors.Unprocessable && o.store == st
    ensures o.response.QuestionCreated? <==> Complete(body) && !insertFails && !HasQuestion(st.questions, newId)
    ensures o.response.QuestionCreated? ==>
              && o.response.created == newId
              && |o.store.questions| == |st.questions| + 1
              && (forall q :: q in o.store.questions <==> q in st.questions || q == NewQuestion(body, newId))
              && o.store.categories == st.categories
              && o.response.totalQuestions == |o.store.questions|
              && o.response.questions == Page(page, o.store.questions)
  {
    if !Complete(body) then Outcome(Abort(Errors.Unprocessable), st)
    else if insertFails || FindQuestion(st.questions, newId).Some? then Outcome(Abort(Errors.Unprocessable), st)
    else
      var selection := InsertQuestion(st.questions, NewQuestion(body, newId));
      Outcome(QuestionCreated(newId, Page(page, selection), |selection|), st.(questions := selection))
  }

  // ---------------------------------------------------------------- POST /questions/search

  /** Every question whose text contains the term, ignoring case. */
  function SearchMatches(qs: seq<Question>, term: string): (r: seq<Question>)
    ensures forall q :: q in r <==> q in qs && MatchesIgnoringCase(q.question, term)
    ensures forall q :: multiset(r)[q] == if MatchesIgnoringCase(q.question, term) then multiset(qs)[q] else 0
  {
    var keep := (q: Question) => MatchesIgnoringCase(q.question, term);
    FilterMultiplicity(qs, keep);
    Filter(qs, keep)
  }

  /** `searchTerm` is None when the key is absent or `null`. */
  function SearchQuestions(st: Store, searchTerm: Option<string>, page: int): (r: Response)
    ensures r.Abort? <==> !TruthyText(searchTerm)
    ensures r.Abort? ==> r.code == Errors.NotFound
    ensures !r.Abort? ==> r.SearchResult?
    ensures r.SearchResult? ==>
              && r.totalQuestions == |SearchMatches(st.questions, searchTerm.value)|
              && r.questions == Page(page, SearchMatches(st.questions, searchTerm.value))
    ensures r.SearchResult? ==>
              forall q :: q in r.questions ==> q in st.questions && MatchesIgnoringCase(q.question, searchTerm.value)
  {
    if !TruthyText(searchTerm) then Abort(Errors.NotFound)
    else
      var matches := SearchMatches(st.questions, searchTerm.value);
      PageElementsFromSelection(page, matches);
      SearchResult(Page(page, matches), |matches|)
  }

  // ---------------------------------------------------------------- GET /categories/id/questions

  /** Every question filed under the category id. */
  function InCategory(qs: seq<Question>, categoryId: int): (r: seq<Question>)
    ensures forall q :: q in r <==> q in qs && q.category == categoryId
    ensures forall q :: multiset(r)[q] == if q.category == categoryId then multiset(qs)[q] else 0
  {
    var keep := (q: Question) => q.category == categoryId;
    FilterMultiplicity(qs, keep);
    Filter(qs, keep)
  }

  function GetQuestionsByCategoryId(st: Store, categoryId: int, page: int): (r: Response)
    ensures r.Abort? <==> !HasCategory(st.categories, categoryId)
    ensures r.Abort? ==> r.code == Errors.NotFound
    ensures !r.Abort? ==> r.CategoryQuestions?
    ensures r.CategoryQuestions? ==>
              && r.totalQuestions == |InCategory(st.questions, categoryId)|
              && r.questions == Page(page, InCategory(st.questions, categoryId))
              && (exists c :: c in st.categories && c.id == categoryId && c.kind == r.currentCategory)
    ensures r.CategoryQuestions? ==>
              forall q :: q in r.questions ==> q in st.questions && q.category == categoryId
  {
    match FindCategory(st.categories, categoryId)
    case None => Abort(Errors.NotFound)
    case Some(category) =>
      var matches := InCategory(st.questions, categoryId);
      PageElementsFromSelection(page, matches);
      CategoryQuestions(Page(page, matches), |matches|, category.kind)
  }

  // ---------------------------------------------------------------- POST /quizzes

  /** The questions not yet asked, restricted to the quiz category unless it is 0 ("all"). */
  function QuizCandidates(qs: seq<Question>, quizCategory: int, previous: seq<int>): (r: seq<Question>)
    ensures forall q :: q in r <==> q in qs && q.id !in previous && (quizCategory != 0 ==> q.category == quizCategory)
  {
    Filter(qs, (q: Question) => q.id !in previous && (quizCategory == 0 || q.category == quizCategory))
  }

  /** `random.choice` is modelled by `pick`: the candidate at index
      pick mod |candidates|. Every candidate is the result for some pick. */
  function StartQuiz(st: Store, quizCategory: int, previous: seq<int>, pick: nat): (r: Response)
    ensures r.QuizQuestion?
    ensures r.question.None? <==> |QuizCandidates(st.questions, quizCategory, previous)| == 0
    ensures r.question.Some? ==>
              && r.question.value in st.questions
              && r.question.value.id !in previous
              && (quizCategory != 0 ==> r.question.value.category == quizCategory)
  {
    var candidates := QuizCandidates(st.questions, quizCategory, previous);
    if |candidates| == 0 then QuizQuestion(None)
    else
      assert candidates[pick % |candidates|] in candidates;
      QuizQuestion(Some(candidates[pick % |candidates|]))
  }
}

=== FILE: models.dfy ===
/** The conventional optional value: JSON `null` / an absent key, or a value. */
module Optional {
  datatype Option<+T> = None | Some(value: T)
}

/**
 The two persisted entities and an in-memory store standing in for the
 relational database: each table is a sequence kept in primary-key order.
 */
module Models {
  import opened Optional

  /** A category row. The column `type` is called `kind` here. */
  datatype Category = Category(id: int, kind: string)

  /** A question row; `format()` of a question is this record itself. */
  datatype Question = Question(id: int, question: string, answer: string, category: int, difficulty: int)

  datatype Store = Store(questions: seq<Question>, categories: seq<Category>)

  predicate QuestionsInIdOrder(qs: seq<Question>)
  {
    forall i, j :: 0 <= i < j < |qs| ==> qs[i].id < qs[j].id
  }

  predicate CategoriesInIdOrder(cs: seq<Category>)
  {
    forall i, j :: 0 <= i < j < |cs| ==> cs[i].id < cs[j].id
  }

  /** Both tables are in primary-key order, so primary keys are unique. */
  predicate Valid(st: Store)
  {
    QuestionsInIdOrder(st.questions) && CategoriesInIdOrder(st.categories)
  }

  predicate HasQuestion(qs: seq<Question>, id: int)
  {
    exists q :: q in qs && q.id == id
  }

  predicate HasCategory(cs: seq<Category>, id: int)
  {
    exists c :: c in cs && c.id == id
  }

  /** `Question.query.get(id)` */
  function FindQuestion(qs: seq<Question>, id: int): (r: Option<Question>)
    ensures r.Some? <==> HasQuestion(qs, id)
    ensures r.Some? ==> r.value in qs && r.value.id == id
  {
    if qs == [] then None
    else if qs[0].id == id then Some(qs[0])
    else FindQuestion(qs[1..], id)
  }

  /** `Category.query.get(id)` */
  function FindCategory(cs: seq<Category>, id: int): (r: Option<Category>)
    ensures r.Some? <==> HasCategory(cs, id)
    ensures r.Some? ==> r.value in cs && r.value.id == id
  {
    if cs == [] then None
    else if cs[0].id == id then Some(cs[0])
    else FindCategory(cs[1..], id)
  }

  /** The rows of a table a query filter keeps, in table order. */
  function Filter<T(!new)>(xs: seq<T>, keep: T -> bool): (r: seq<T>)
    ensures |r| <= |xs|
    ensures forall x :: x in r <==> x in xs && keep(x)
  {
    if xs == [] then []
    else (if keep(xs[0]) then [xs[0]] else []) + Filter(xs[1..], keep)
  }

  /** A filter keeps each kept row exactly as often as the table holds it
      and drops every other row, so its length counts the matching rows. */
  lemma {:induction false} FilterMultiplicity<T(!new)>(xs: seq<T>, keep: T -> bool)
    ensures forall x :: multiset(Filter(xs, keep))[x] == if keep(x) then multiset(xs)[x] else 0
  {
    if xs != [] {
      FilterMultiplicity(xs[1..], keep);
      assert xs == [xs[0]] + xs[1..];
    }
  }

  /** A filter that keeps every row returns the table unchanged. */
  lemma {:induction false} FilterKeepingAll<T(!new)>(xs: seq<T>, keep: T -> bool)
    requires forall x :: x in xs ==> keep(x)
    ensures Filter(xs, keep) == xs
  {
    if xs != [] {
      FilterKeepingAll(xs[1..], keep);
      assert [xs[0]] + xs[1..] == xs;
    }
  }

  /** A filter of the question table keeps its id order. */
  lemma {:induction false} FilterKeepsIdOrder(qs: seq<Question>, keep: Question -> bool)
    requires QuestionsInIdOrder(qs)
    ensures QuestionsInIdOrder(Filter(qs, keep))
  {
    if qs != [] {
      var rest := Filter(qs[1..], keep);
      FilterKeepsIdOrder(qs[1..], keep);
      if keep(qs[0]) {
        var r := [qs[0]] + rest;
        forall i, j | 0 <= i < j < |r|
          ensures r[i].id < r[j].id
        {
          if i == 0 {
            assert r[j] in qs[1..];
          } else {
            assert r[i] == rest[i - 1] && r[j] == rest[j - 1];
          }
        }
      }
    }
  }

  /** The question table without the row whose id is `id`. */
  function WithoutQuestion(qs: seq<Question>, id: int): (r: seq<Question>)
    ensures forall q :: q in r <==> q in qs && q.id != id
    ensures QuestionsInIdOrder(qs) ==> QuestionsInIdOrder(r)
  {
    var keep := (q: Question) => q.id != id;
    if QuestionsInIdOrder(qs) then FilterKeepsIdOrder(qs, keep); Filter(qs, keep)
    else Filter(qs, keep)
  }

  /** With unique ids, removing a present id removes exactly one row. */
  lemma {:induction false} WithoutPresentQuestion(qs: seq<Question>, id: int)
    requires QuestionsInIdOrder(qs)
    requires HasQuestion(qs, id)
    ensures |WithoutQuestion(qs, id)| == |qs| - 1
  {
    assert qs != [];
    if qs[0].id == id {
      forall q | q in qs[1..]
        ensures q.id != id
      {
        var k :| 0 <= k < |qs[1..]| && qs[1..][k] == q;
        assert qs[k + 1] == q;
      }
      FilterKeepingAll(qs[1..], (q: Question) => q.id != id);
      assert WithoutQuestion(qs[1..], id) == qs[1..];
    } else {
      var q :| q in qs && q.id == id;
      assert q in qs[1..];
      WithoutPresentQuestion(qs[1..], id);
    }
  }

  /** In an id-ordered table without q's id, the rows after the first are still
      in id order without q's id, and the first row is below all of them and
      below q unless q goes before it. */
  lemma {:induction false} InsertStep(qs: seq<Question>, q: Question)
    requires qs != [] && qs[0].id <= q.id
    requires QuestionsInIdOrder(qs) && !HasQuestion(qs, q.id)
    ensures QuestionsInIdOrder(qs[1..]) && !HasQuestion(qs[1..], q.id)
    ensures forall x :: x in qs[1..] ==> qs[0].id < x.id
    ensures qs[0].id < q.id
  {
    forall x | x in qs[1..]
      ensures qs[0].id < x.id
    {
      var k :| 0 <= k < |qs[1..]| && qs[1..][k] == x;
      assert qs[k + 1] == x;
    }
    assert qs[0] in qs;
  }

  /** Inserts a row into the question table at the position its id dictates. */
  function InsertQuestion(qs: seq<Question>, q: Question): (r: seq<Question>)
    ensures |r| == |qs| + 1
    ensures forall x :: x in r <==> x in qs || x == q
    ensures QuestionsInIdOrder(qs) && !HasQuestion(qs, q.id) ==> QuestionsInIdOrder(r)
  {
    if qs == [] then [q]
    else if q.id < qs[0].id then [q] + qs
    else
      var rest := InsertQuestion(qs[1..], q);
      if QuestionsInIdOrder(qs) && !HasQuestion(qs, q.id) then InsertStep(qs, q); [qs[0]] + rest
      else [qs[0]] + rest
  }

  /** Inserting an id larger than all present ids appends the row. */
  lemma {:induction false} InsertLargestAppends(qs: seq<Question>, q: Question)
    requires forall i :: 0 <= i < |qs| ==> qs[i].id < q.id
    ensures InsertQuestion(qs, q) == qs + [q]
  {
    if qs != [] {
      assert qs[0].id < q.id;
      InsertLargestAppends(qs[1..], q);
      assert [qs[0]] + (qs[1..] + [q]) == qs + [q];
    }
  }

  /** `{category.id: category.type for category in categories}`: later rows
      overwrite earlier ones with the same id. */
  function CategoryMap(cs: seq<Category>): (m: map<int, string>)
    ensures forall k :: k in m <==> HasCategory(cs, k)
    ensures forall k :: k in m ==> exists c :: c in cs && c.id == k && c.kind == m[k]
    ensures CategoriesInIdOrder(cs) ==> forall c :: c in cs ==> c.id in m && m[c.id] == c.kind
  {
    if cs == [] then map[]
    else
      var init, last := cs[..|cs| - 1], cs[|cs| - 1];
      assert forall c :: c in cs <==> c in init || c == last;
      assert CategoriesInIdOrder(cs) ==> CategoriesInIdOrder(init) && forall c :: c in init ==> c.id < last.id;
      CategoryMap(init)[last.id := last.kind]
  }
}

=== FILE: pagination.dfy ===
/**
 The pagination helper of the trivia API: a page is a fixed-size window of an
 ordered selection, taken with Python's slice semantics `selection[lo:hi]`.
 Page numbers are arbitrary integers, exactly as the query string parser hands
 them over, so non-positive pages follow Python's negative-index rules.
 */
module Pagination {

  /** QUESTIONS_PER_PAGE */
  const PageSize := 10

  function Min(a: int, b: int): int { if a <= b then a else b }

  function Max(a: int, b: int): int { if a >= b then a else b }

  /** Python's normalisation of one slice bound against a length-n sequence:
      a negative bound counts from the end, then the bound is clamped to [0, n]. */
  function SliceBound(i: int, n: nat): (r: nat)
    ensures r <= n
  {
    if i < 0 then Max(0, n + i) else Min(i, n)
  }

  /** Python's `s[lo:hi]` with the default step. */
  function PySlice<T>(s: seq<T>, lo: int, hi: int): seq<T>
  {
    var a := SliceBound(lo, |s|);
    var b := SliceBound(hi, |s|);
    if a < b then s[a..b] else []
  }

  /** Index of the first item of page p. */
  function PageStart(p: int): int { (p - 1) * PageSize }

  /** `pageinit_questions`: page p of the selection. */
  function Page<T>(p: int, selection: seq<T>): (r: seq<T>)
    ensures |r| <= PageSize
    ensures p >= 1 ==> |r| == Min(PageSize, Max(0, |selection| - PageStart(p)))
    ensures p >= 1 ==> forall j :: 0 <= j < |r| ==> r[j] == selection[PageStart(p) + j]
  {
    PySlice(selection, PageStart(p), PageStart(p) + PageSize)
  }

  /** Page p lies wholly past the end of a selection of n items. */
  predicate PastEnd(p: int, n: nat)
  {
    if p >= 1 then n <= (p - 1) * PageSize
    else if p == 0 then true
    else n + p * PageSize <= 0
  }

  /** For a positive page, the page is exactly the window
      [(p-1)*10, min(n, (p-1)*10 + 10)) of the selection (empty past the end). */
  lemma PageWindow<T>(p: int, selection: seq<T>)
    requires p >= 1
    ensures PageStart(p) <= |selection| ==>
              Page(p, selection) == selection[PageStart(p) .. Min(|selection|, PageStart(p) + PageSize)]
    ensures PageStart(p) > |selection| ==> Page(p, selection) == []
  {
  }

  /** Which pages are empty, in closed form: positive pages past the last item,
      page 0 always, and a negative page whose Python window lies before index 0. */
  lemma PageEmptyIff<T>(p: int, selection: seq<T>)
    ensures |Page(p, selection)| == 0 <==> PastEnd(p, |selection|)
  {
  }

  /** Page 0 is the slice [-10:0], which is always empty. */
  lemma PageZeroIsEmpty<T>(selection: seq<T>)
    ensures Page(0, selection) == []
  {
  }

  /** A negative page follows Python's negative indices: it is the window of
      up to ten items ending |p|*10 items before the end of the selection,
      cut short where it would reach before index 0. */
  lemma NegativePage<T>(p: int, selection: seq<T>)
    requires p < 0
    ensures var n := |selection|;
            Page(p, selection) == selection[Max(0, n + (p - 1) * PageSize) .. Max(0, n + p * PageSize)]
  {
  }

  /** Page -1 of a selection longer than one page is the up-to-ten items
      ending ten items before the end, not an empty page. */
  lemma MinusOnePageNotEmpty<T>(selection: seq<T>)
    requires |selection| > PageSize
    ensures Page(-1, selection) == selection[Max(0, |selection| - 2 * PageSize) .. |selection| - PageSize]
    ensures |Page(-1, selection)| > 0
  {
  }

  /** Every item of a page is an item of the selection, for any page number. */
  lemma PageElementsFromSelection<T>(p: int, selection: seq<T>)
    ensures forall x :: x in Page(p, selection) ==> x in selection
  {
  }

  /** Every item of the selection sits on page i/10 + 1, at offset i%10. */
  lemma PageLocates<T>(i: int, selection: seq<T>)
    requires 0 <= i < |selection|
    ensures var p := i / PageSize + 1;
            p >= 1 && i % PageSize < |Page(p, selection)| && Page(p, selection)[i % PageSize] == selection[i]
  {
  }

  /** Pages p, p+1, ..., p+count-1 concatenated. */
  function PagesFrom<T>(selection: seq<T>, p: int, count: nat): seq<T>
    decreases count
  {
    if count == 0 then [] else Page(p, selection) + PagesFrom(selection, p + 1, count - 1)
  }

  /** Consecutive positive pages tile the selection without gaps or overlap. */
  lemma {:induction false} PagesFromWindow<T>(selection: seq<T>, p: int, count: nat)
    requires p >= 1
    ensures var n := |selection|;
            PagesFrom(selection, p, count) == selection[Min(n, PageStart(p)) .. Min(n, PageStart(p + count))]
    decreases count
  {
    var n := |selection|;
    if count > 0 {
      PagesFromWindow(selection, p + 1, count - 1);
      assert PageStart(p + 1) == PageStart(p) + PageSize;
      assert PageStart(p + 1) <= PageStart(p + count) by {
        assert PageStart(p + count) - PageStart(p + 1) == (count - 1) * PageSize;
      }
      var a, b, c := Min(n, PageStart(p)), Min(n, PageStart(p + 1)), Min(n, PageStart(p + count));
      assert 0 <= a <= b <= c <= n;
      assert Page(p, selection) == selection[a..b];
      assert selection[a..b] + selection[b..c] == selection[a..c];
    }
  }

  /** Reading pages 1 .. count in order, for any count that leaves no item
      out, yields the whole selection and nothing more. */
  lemma AllPagesCoverSelection<T>(selection: seq<T>, count: nat)
    requires |selection| <= count * PageSize
    ensures PagesFrom(selection, 1, count) == selection
  {
    PagesFromWindow(selection, 1, count);
    assert PageStart(1 + count) == count * PageSize;
  }
}

=== FILE: text.dfy ===
/**
 Case-insensitive substring matching, the meaning of the search query
 `question ILIKE '%term%'`. Case folding is ASCII only. The `%` and `_`
 wildcards and the `\` escape character inside the term are treated as
 ordinary characters.
 */
module Text {

  function Lower(c: char): char
  {
    if 'A' <= c <= 'Z' then (c as int + 32) as char else c
  }

  function LowerString(s: string): string
  {
    seq(|s|, i requires 0 <= i < |s| => Lower(s[i]))
  }

  /** t occurs in s starting at index i. */
  predicate OccursAt(t: string, s: string, i: int)
  {
    0 <= i && i + |t| <= |s| && s[i..i + |t|] == t
  }

  ghost predicate IsSubstring(t: string, s: string)
  {
    exists i :: OccursAt(t, s, i)
  }

  /** Scans s from index i for an occurrence of t. */
  function ContainsFrom(t: string, s: string, i: nat): (r: bool)
    ensures r <==> exists j :: i <= j && OccursAt(t, s, j)
    decreases |s| - i
  {
    if i + |t| > |s| then false
    else if OccursAt(t, s, i) then true
    else ContainsFrom(t, s, i + 1)
  }

  function Contains(t: string, s: string): (r: bool)
    ensures r <==> IsSubstring(t, s)
  {
    ContainsFrom(t, s, 0)
  }

  /** `text ILIKE '%term%'` */
  function MatchesIgnoringCase(text: string, term: string): (r: bool)
    ensures r <==> IsSubstring(LowerString(term), LowerString(text))
  {
    Contains(LowerString(term), LowerString(text))
  }

  /** A term that occurs verbatim in the text is matched. */
  lemma ExactOccurrenceMatches(text: string, term: string)
    requires IsSubstring(term, text)
    ensures MatchesIgnoringCase(text, term)
  {
    var i :| OccursAt(term, text, i);
    var lt, ls := LowerString(term), LowerString(text);
    assert ls[i..i + |lt|] == lt by {
      forall k | 0 <= k < |lt|
        ensures ls[i..i + |lt|][k] == lt[k]
      {
        assert text[i..i + |term|][k] == term[k];
      }
    }
    assert OccursAt(lt, ls, i);
  }

  lemma LowerStringIdempotent(s: string)
    ensures LowerString(LowerString(s)) == LowerString(s)
  {
  }

  /** Only the letters of the term matter, not their case: the lower-cased
      term matches exactly the same texts as the term itself. */
  lemma TermCaseIrrelevant(text: string, term: string)
    ensures MatchesIgnoringCase(text, LowerString(term)) == MatchesIgnoringCase(text, term)
  {
    LowerStringIdempotent(term);
  }

  /** Likewise for the text being searched. */
  lemma TextCaseIrrelevant(text: string, term: string)
    ensures MatchesIgnoringCase(LowerString(text), term) == MatchesIgnoringCase(text, term)
  {
    LowerStringIdempotent(text);
  }
}
